=== FILE: README.md ===
# URL shortener: a Dafny model of its request handlers

The service turns a long URL into a short id and redirects from the id back to
the URL. It keeps its state in two logical databases of a key-value store:
database 0 maps short ids to long URLs (with a time-to-live), database 1 maps a
client IP to that client's remaining request quota (with a 30-minute window) and
also holds the global `"counter"` of redirects.

This project models the decision logic of the three handlers and the two URL
helpers they use, as pure functions over immutable maps:

- `Helpers` (`helpers.dfy`): `EnforceHTTP` and `RemoveDomainError` over
  `seq<char>`, with the service's own domain as a parameter.
- `Store` (`store.dfy`): a logical database is `Db(entries, readsFail,
  writesFail)`; a read is three-way (`Found(v)`, `Missing`, `Failed`); `Set`,
  `IncrBy` (INCR/DECR) and the TTL reply follow the store's and the client
  library's rules (an absent counter counts as 0, only the shortest decimal text
  of an int64 is an integer, INCR/DECR keep the TTL, a non-positive SET
  expiration other than the keep-TTL value -1 stores no TTL, a TTL reply is rounded to seconds).
- `Shorten` (`shorten.dfy`): `ShortenUrl(body, ip, isUrl, generated, env, db0,
  db1)` returns the response and both databases afterwards. The JSON decoding
  outcome (`body: Option<Request>`), the URL validator's verdict (`isUrl`) and
  the six generated characters (`generated`) are inputs.
- `Resolve` (`resolve.dfy`) and `Count` (`count.dfy`): the lookup handlers.
- `Properties` (`properties.dfy`): facts relating several calls — the
  shorten/resolve round trip, a custom short submitted twice, and a bound on
  the successes of one client over any sequence of requests.
- `Decimal` and `GoInt` (`decimal.dfy`, `goint.dfy`): the decimal text of
  integers, Go's `strconv.Atoi` (whose error the handler drops), int64
  wrap-around and truncating division.

Behaviour worth knowing, each proved as stated:

- Only expiry 0 is special (it becomes 24 hours); the handler gives -1 no
  special meaning, and never sends the keep-TTL value -1 to SET, since
  `expiry * 3600 s` is always even, wrapped or not (`Shorten.MappingTtlNs`). The duration `expiry * 3600 s` is computed in int64. For
  `|expiry|` up to 2562047 hours a positive expiry gives a TTL of exactly that
  many hours and a negative one makes the client library send SET without
  expiration, so the mapping never expires (`Shorten.SuccessExpiry`). Beyond
  that bound the product wraps around: expiry 2562048 gives a negative
  duration and a mapping that never expires, while -2562048 gives a TTL of
  about 292 years (`Shorten.ExpiryWrapsAround`).
- The handler generates the id once and does not retry; the uniqueness guard
  applies to generated and custom ids alike, and while database 0 reads work a
  collision gives 403 (`Shorten.IdInUse`). A read error in the
  guard yields the empty text, so the guard passes and an existing mapping can
  be overwritten (`Properties.GuardReadErrorOverwrites`).
- A read error on the quota key also yields the empty text, which reads as 0,
  so the request is rejected with 503 (`Shorten.QuotaReadErrorRejects`).
- Initialising a first-seen client's quota is not checked against the quota,
  so while database 1 accepts writes a client gets at most `max(Q, 1)`
  successes for a configured quota `Q` (`Properties.FreshClientBound`). While
  database 1 reads work but it accepts no writes, the initialisation's error is
  ignored, the key stays absent and the quota never limits that client
  (`Properties.FailOpenNeverDenied`).
- The decrement's error after a success is ignored too: while database 1 reads
  work but it accepts no writes, a known client whose quota reads as positive
  is never charged and never refused (`Properties.WriteFailureNeverDenied`).
- A success charges one unit only when the stored quota is the decimal text of
  an int64: a text such as "+5" is read as 5 by the handler but refused by the
  store's decrement, so it is never charged
  (`Shorten.NonIntegerQuotaNeverCharged`).
- The count handler reads `"generated"` in database 0, while redirects are
  counted under `"counter"` in database 1; the two are unrelated
  (`Properties.CountIgnoresRedirects`), and only a custom short equal to
  `"generated"` can change what the count handler reports
  (`Properties.CountChangesOnlyThroughItsKey`).
- `RemoveDomainError(h + "/" + p, domain)` can depend on `p`: for `h = "http:"`
  and `p = "/d.io"` the text becomes `"http://d.io"`, which is rejected for
  `"d.io"`, while `"http:/"` is accepted (`Helpers.PathMattersWhenUnsettled`).
  The path is irrelevant when no strip stage of `h + "/"` is a proper prefix of
  the text stripped next (`Helpers.PathIrrelevant`).
- `RemoveDomainError` compares whole hosts: `"d.io.evil.com"` is accepted for
  `"d.io"` (`Helpers.LookalikeHostAccepted`).
- `EnforceHTTP` tests only for the four letters "http", so `"httpbin.org/get"`
  is stored without a scheme (`Helpers.HttpNamedHostKeepsNoScheme`). The
  resolve handler hands that stored text to Go's redirect helper, which treats
  a value without scheme and host as a path on the service's own host.

HTTP status codes are the `StatusCode` of each handler's response datatype;
the lemmas naming an error path state the code it produces.

## Model

| member | source | states |
|---|---|---|
| `Helpers.EnforceHTTP` | api/helpers/helpers.go:12-28 | The result always starts with "http"; an input starting with "http" (also "httpfoo.com") is returned unchanged, any other gets "http://" in front; the input is always a suffix of the result. |
| `Helpers.EnforceHTTPIdempotent` | api/helpers/helpers.go:18-26 | Applying EnforceHTTP twice gives the same text as applying it once. |
| `Helpers.HttpNamedHostKeepsNoScheme` | api/helpers/helpers.go:18-26 | "httpbin.org/get" is returned unchanged and has no "http://" or "https://" scheme. |
| `Helpers.TrimPrefix` | api/helpers/helpers.go:44-50 | The prefix is removed at most once, and only when the text starts with it; otherwise the text is unchanged. |
| `Helpers.FirstSegment` | api/helpers/helpers.go:53 | The result is the longest '/'-free prefix of the text: it is a prefix, contains no '/', and is either the whole text or followed by '/'. |
| `Helpers.ExtractHost` | api/helpers/helpers.go:44-53 | The host is the '/'-free prefix of the URL after stripping "http://", then "https://", then "www.", ending at the first '/' or the end. |
| `Helpers.FirstSegmentUnique` | api/helpers/helpers.go:53 | Any '/'-free prefix that ends at a '/' or at the end of the text is the first segment. |
| `Helpers.ExtractHostIs` | api/helpers/helpers.go:44-57 | The host equals a text exactly when that text has no '/' and the stripped URL is it or starts with it followed by '/'. |
| `Helpers.RemoveDomainError` | api/helpers/helpers.go:31-60 | Rejected exactly when the URL equals the domain, or the domain has no '/' and the stripped URL is the domain itself or the domain followed by '/'; a domain containing '/' is matched only exactly. |
| `Helpers.OwnDomainRejected` | api/helpers/helpers.go:36-57 | For a domain with no '/', not starting with "www." and not "http:" or "https:", the domain is rejected with no scheme, "http://" or "https://", with or without "www.", and with any path starting with '/', e.g. "https://www.<domain>/any/path". |
| `Helpers.HostIgnoresSuffix` | api/helpers/helpers.go:44-53 | When no strip stage of the URL is a proper prefix of the text stripped next and a '/' survives the stripping, text appended to the URL does not change the extracted host. |
| `Helpers.PathIrrelevant` | api/helpers/helpers.go:44-57 | For h + "/" + p with settled scheme prefixes (and neither text equal to the domain) the verdict does not depend on p. |
| `Helpers.PathMattersWhenUnsettled` | api/helpers/helpers.go:44-57 | With h = "http:" the path does matter: "http://d.io" is rejected for domain "d.io" while "http:/" is accepted. |
| `Helpers.WwwDomainNotProtected` | api/helpers/helpers.go:50-57 | A domain that itself starts with "www." is not recognised in its own URLs with a path, because "www." is stripped from the URL only. |
| `Helpers.LookalikeHostAccepted` | api/helpers/helpers.go:53-57 | "d.io.evil.com" and "https://d.io.evil.com/x" are accepted for domain "d.io". |
| `GoInt.Wrap64` | api/routes/shorten.go:110 | The int64 result is congruent to the exact product modulo 2^64 and equals it when it fits. |
| `GoInt.Quo` | api/routes/shorten.go:65 | Division rounds toward zero for both signs of the dividend. |
| `GoInt.ScanUint` | api/routes/shorten.go:59 | A parse result is the value of an all-digit text within uint64; a syntax error means a non-digit was present. |
| `GoInt.ScanUintDigits` | api/routes/shorten.go:59 | An all-digit text whose value fits in uint64 parses to exactly that value. |
| `GoInt.ScanUintRangeError` | api/routes/shorten.go:59 | The scan gives a range error exactly when some leading run of digits denotes more than the uint64 maximum. |
| `GoInt.ParseUint` | api/routes/shorten.go:59 | Empty text is a syntax error; a parse result is the value of an all-digit text within uint64; a syntax error means the text is empty or holds a non-digit. |
| `GoInt.ParseUintDigits` | api/routes/shorten.go:59 | A non-empty all-digit text whose value fits in uint64 parses to exactly that value. |
| `GoInt.Atoi` | api/routes/shorten.go:59 | The converted quota is always an int64, also for malformed or out-of-range text. |
| `GoInt.AtoiIntToString` | api/routes/shorten.go:127-128 | Atoi reads back every int64 from its decimal text, so the store's counters are read correctly. |
| `GoInt.AtoiNonNumeric` | api/routes/shorten.go:59-60 | Text that does not start with a digit after an optional sign converts to 0, so a non-numeric quota is an exhausted one. |
| `GoInt.Clamp64` | api/routes/shorten.go:59 | The result is the nearest int64: the value itself when it fits, otherwise the bound it exceeds. |
| `GoInt.AtoiDigits` | api/routes/shorten.go:59 | An optional "+" or "-" followed by digits converts to the signed value of the digits clamped to int64. |
| `GoInt.AtoiExamples` | api/routes/shorten.go:59-60 | "+5" converts to 5, "007" to 7 and "5x" to 0. |
| `Decimal.NatToString` | api/routes/shorten.go:125-128 | The text the store writes for a number is canonical and denotes that number. |
| `Decimal.IntToString` | api/routes/shorten.go:125-128 | The text INCR/DECR leave for an integer is its canonical digits, preceded by "-" exactly when it is negative. |
| `Decimal.CanonicalIsNatToString` | api/routes/shorten.go:125-128 | Every canonical digit text is the written form of the number it denotes. |
| `Store.Get` | api/routes/resolve.go:34-48 | A read fails exactly on a store error, reports a missing key exactly when the key is absent, and otherwise returns the stored value. |
| `Store.Text` | api/routes/shorten.go:99-100 | The text the handler sees is the value when one was found and "" for a missing key or an error. |
| `Store.TtlAfterSet` | api/routes/shorten.go:110 | A positive expiration gives a TTL within one millisecond of it; a non-positive one (other than keep-TTL) leaves the key without TTL. |
| `Store.Set` | api/routes/shorten.go:110-114 | SET succeeds exactly when writes work; on success the key holds the value and every other key is unchanged; on failure nothing changes. |
| `Store.RedisInteger` | api/routes/shorten.go:125 | The store's integer reading of a value is always an int64. |
| `Store.RedisIntegerIff` | api/routes/shorten.go:125 | The store reads n from a value exactly when n is an int64 and the value is n's decimal text. |
| `Store.IncrBy` | api/routes/shorten.go:125 | INCR/DECR succeed exactly when writes work, the counter (absent = 0) is an integer and the result fits in int64; then the counter moves by exactly delta, the TTL is kept (none for a new key), and no other key changes. |
| `Store.TtlDuration` | api/routes/shorten.go:62-65 | The TTL reading is 0 on error, -2 for an absent key, -1 without TTL, and otherwise whole seconds within half a second of the stored TTL. |
| `Shorten.ResetMinutes` | api/routes/shorten.go:65 | The reset is the TTL reading in whole minutes, truncated, and never negative. |
| `Shorten.CheckQuota` | api/routes/shorten.go:46-69 | The request is rejected exactly when the quota key is present (or unreadable) and reads as 0 or less, with the TTL in minutes; an absent key is set to the configured quota with a 30-minute TTL when writes work, and when they fail database 1 is left unchanged and the request admitted; only the client's key can change. |
| `Shorten.EffectiveExpiry` | api/routes/shorten.go:106-108 | An expiry of 0 becomes 24; every other value is kept. |
| `Shorten.ShortId` | api/routes/shorten.go:88-93 | The mapping's key is the custom short when one is given and the generated id otherwise; it is never empty when the generated id is not. |
| `Shorten.MappingTtlNs` | api/routes/shorten.go:110 | The expiration handed to SET is an int64, equal to expiry hours in nanoseconds whenever that fits, and always even, so never the keep-TTL value -1. |
| `Shorten.MappingTtl` | api/routes/shorten.go:106-110 | For expiries up to 2562047 hours in magnitude, a positive expiry gives a TTL of exactly that many hours; a negative one gives no TTL. |
| `Shorten.ExpiryWrapsAround` | api/routes/shorten.go:106-110 | Expiry 2562048 wraps to a negative duration and gives no TTL; expiry -2562048 wraps to a positive one and gives a TTL of 9223371273709 ms. |
| `Shorten.StatusCode` | api/routes/shorten.go:42-134 | Status 200 is sent exactly for a shortened URL; every rejection carries a 4xx or 5xx status. |
| `Shorten.ShortenUrl` | api/routes/shorten.go:35-135 | A parse failure changes nothing; database 0 changes only on success, and then only at the chosen id, which maps to the normalised URL; short is domain + "/" + id; only the client's quota key in database 1 can change, and on failure only by the quota initialisation. |
| `Shorten.Persist` | api/routes/shorten.go:106-135 | A failed SET gives 500 with nothing stored and nothing charged; otherwise the mapping id to URL is added with all other keys unchanged and the response echoes URL, short and expiry. |
| `Shorten.ShortenedIff` | api/routes/shorten.go:39-134 | A request succeeds exactly when JSON parsed, the quota admitted it, the URL is valid and not the own domain, the id reads as empty, and the write works. |
| `Shorten.QuotaExhausted` | api/routes/shorten.go:59-67 | A stored quota reading as 0 or less gives 503 with the TTL rounded to seconds then truncated to minutes, and writes nothing. |
| `Shorten.QuotaReadErrorRejects` | api/routes/shorten.go:51-67 | An error reading the quota is treated as an exhausted quota: 503 with reset 0 and nothing written. |
| `Shorten.QuotaInitialised` | api/routes/shorten.go:54-57 | While database 1 works, a first-seen client is never rate-limited on that request, and if the request then fails its quota stays at the configured value with a 30-minute TTL. |
| `Shorten.QuotaFailsOpen` | api/routes/shorten.go:51-57 | While database 1 reads work but it accepts no writes, and it has no key for the client, the request is not rate-limited, whatever the configured quota, and database 1 is left unchanged. |
| `Shorten.WriteFailureNeverCharges` | api/routes/shorten.go:51-128 | While database 1 accepts no writes, no request changes it; when its reads work, a known client whose quota reads as positive is not rate-limited. |
| `Shorten.ValidationOrder` | api/routes/shorten.go:72-82 | After the quota step an invalid URL gives 400 and an own-domain URL gives 503, with database 0 unchanged and no quota charged. |
| `Shorten.IdInUse` | api/routes/shorten.go:88-104 | While database 0 reads work, an id already mapped to a non-empty value gives 403; the mapping is kept and the quota is not charged. |
| `Shorten.StoreFailure` | api/routes/shorten.go:110-114 | A failing SET gives 500 with database 0 unchanged and the quota not charged. |
| `Shorten.SuccessIsPersist` | api/routes/shorten.go:84-135 | A success stores the scheme-normalised URL under the custom short, or the generated id when none is given, with the effective expiry. |
| `Shorten.PersistExpiry` | api/routes/shorten.go:106-110 | For expiries up to 2562047 hours in magnitude the stored mapping's TTL is expiry * 3600 seconds, or none for a negative expiry. |
| `Shorten.SuccessExpiry` | api/routes/shorten.go:106-120 | On success the response echoes 24 for expiry 0 and the request's expiry otherwise, and, for expiries up to 2562047 hours in magnitude, the mapping's TTL is that many hours (none when negative). |
| `Shorten.PersistConsumesOne` | api/routes/shorten.go:125-131 | While database 1 works, a stored quota that is the decimal text of an int64 n above the int64 minimum becomes n - 1 with its TTL kept, and the response reports n - 1 and the TTL in minutes. |
| `Shorten.SuccessConsumesOne` | api/routes/shorten.go:117-131 | While database 1 works and the quota held after the quota step is the decimal text of an int64 n (above the int64 minimum), a success charges exactly one unit, leaving n - 1 with the TTL kept, and reports n - 1. |
| `Shorten.NonIntegerQuotaNeverCharged` | api/routes/shorten.go:59-128 | A quota text that Atoi reads as positive but the store does not accept as an integer ("+5", "05") is never decremented. |
| `Resolve.StatusCode` | api/routes/resolve.go:38-60 | Status 301 is sent exactly for a redirect; not-found and store errors carry 4xx/5xx codes. |
| `Resolve.ResolveUrl` | api/routes/resolve.go:16-63 | A missing key gives 404 and an error gives 500, both leaving database 1 unchanged; a hit gives 301 and hands exactly the stored value to the redirect; database 0 is never modified and only "counter" in database 1 can change. |
| `Resolve.RedirectCounted` | api/routes/resolve.go:50-60 | On a hit "counter" goes up by exactly one (an absent counter becomes "1"), and a failed increment leaves database 1 unchanged without affecting the redirect. |
| `Count.UrlCount` | api/routes/count.go:14-48 | Nothing is written; a read error gives HTTP 500, status "false" and count "0"; otherwise HTTP 200 and status "true", with count "0" for an absent "generated" key and the stored value verbatim for a present one. |
| `Properties.ShortenThenResolve` | api/routes/resolve.go:34-60 | While database 0 reads work, after a successful shorten, resolving the chosen id hands the scheme-normalised URL to the redirect and leaves database 0 as the shorten left it. |
| `Properties.CustomShortTwice` | api/routes/shorten.go:99-104 | While database 0 reads work, submitting the same custom short again after a success yields 403 (or 503 from the quota), never a second mapping. |
| `Properties.GuardReadErrorOverwrites` | api/routes/shorten.go:99-110 | When the uniqueness read fails but the write works, the request succeeds and the id maps to the new URL whatever it held before. |
| `Properties.QuotaStep` | api/routes/shorten.go:51-128 | While database 1 accepts writes, for a stored quota that is the decimal text of an int64 m, a success needs m > 0 and leaves m - 1; any other outcome leaves m. |
| `Properties.QuotaBound` | api/routes/shorten.go:51-128 | Over any sequence of requests from one client, a stored quota that is the decimal text of an int64 m allows at most max(m, 0) successes while database 1 accepts writes. |
| `Properties.FreshClientBound` | api/routes/shorten.go:51-128 | While database 1 accepts writes, a first-seen client with configured quota Q (the decimal text of an int64) gets at most max(Q, 1) successes over any sequence of requests. |
| `Properties.FailOpenNeverDenied` | api/routes/shorten.go:51-57 | While database 1 reads work but it accepts no writes, a client it has no key for is never refused by the quota over any sequence of requests. |
| `Properties.WriteFailureNeverDenied` | api/routes/shorten.go:51-128 | While database 1 reads work but it accepts no writes, a client whose stored quota reads as positive is never refused over any sequence of requests. |
| `Properties.CountIgnoresRedirects` | api/routes/count.go:16-19 | Resolving never changes what the count handler reports. |
| `Properties.CountChangesOnlyThroughItsKey` | api/routes/count.go:19 | A shorten changes the count handler's answer only when its custom short is "generated"; a generated id never is. |

## Left out

- Environment loading, router registration and store client construction (`api/main.go`, `api/routes/routes.go`, `api/database/database.go`): configuration becomes the `Env` parameter and the two databases become `Db` values.
- `govalidator.IsURL`, JSON binding and `uuid.New()`: foreign library calls, taken as inputs (`isUrl`, `body: Option<Request>`, and six lower-case hex characters).
- How the framework derives the client IP: the IP is an input text.
- Time: TTLs are numbers attached to entries and never run out, so quota windows do not reset and mappings do not expire within the model.
- Store faults are per database (every read, or every write, of that database fails) rather than per command; a read that fails while a later read of the same database succeeds is not represented. On the write side this hides one sequence: a failed quota initialisation (`api/routes/shorten.go:56`) followed by a successful decrement (`api/routes/shorten.go:125`) would create the quota "-1" without TTL, refusing that client for good.
- Concurrency and the check-then-act races of the uniqueness guard and of the quota read followed by the decrement: the model is sequential.
- Connection opening and closing, the log line of the count handler, error message texts of the shorten and resolve handlers, and HTTP/JSON encoding beyond status codes and response field values.
- `Resolve.ResolveUrl`: `Redirect(location)` is the argument handed to `http.Redirect`, not the Location header it sends; that helper turns a value without scheme and host into a path on the service's own host and percent-escapes non-ASCII bytes, which is not modelled.
- `Shorten.SuccessExpiry`, `Shorten.PersistExpiry` and `Shorten.MappingTtl` state the TTL only for expiries up to 2562047 hours in magnitude; beyond that the int64 wrap-around gives the TTLs shown by `Shorten.ExpiryWrapsAround`.

=== FILE: count.dfy ===
/**
 * The count handler (GET /count/): report the value stored under
 * "generated" in database 0. It only reads.
 */
module Count {
  import opened Store

  datatype Response = Response(httpStatus: int, status: string, message: string, count: string)

  /** The database 0 key the handler reports. */
  const GeneratedKey: string := "generated"

  function UrlCount(db0: Db, db1: Db): (h: Handled<Response>)
    ensures h.db0 == db0 && h.db1 == db1
    ensures h.response.httpStatus == (if db0.readsFail then 500 else 200)
    ensures h.response.status == (if db0.readsFail then "false" else "true")
    ensures !db0.readsFail && GeneratedKey !in db0.entries ==> h.response.count == "0"
    ensures db0.readsFail ==> h.response.count == "0"
    ensures !db0.readsFail && GeneratedKey in db0.entries ==> h.response.count == db0.entries[GeneratedKey].value
  {
    match Get(db0, GeneratedKey)
    case Missing => Handled(Response(200, "true", "total count fetched", "0"), db0, db1)
    case Failed => Handled(Response(500, "false", "Internal Server Error", "0"), db0, db1)
    case Found(count) => Handled(Response(200, "true", "Total URLs generated", count), db0, db1)
  }
}

=== FILE: decimal.dfy ===
/**
 * Decimal digit strings. The key-value store keeps every integer as text, and
 * the service reads those texts back with Go's string-to-int conversion, so the
 * model needs the text form of an integer and its inverse.
 */
module Decimal {

  predicate IsDigit(c: char) {
    '0' <= c <= '9'
  }

  function DigitValue(c: char): (d: nat)
    requires IsDigit(c)
    ensures d < 10
  {
    c as int - '0' as int
  }

  function DigitChar(d: nat): (c: char)
    requires d < 10
    ensures IsDigit(c) && DigitValue(c) == d
  {
    ('0' as int + d) as char
  }

  predicate AllDigits(s: string) {
    forall i :: 0 <= i < |s| ==> IsDigit(s[i])
  }

  /** The number a digit string denotes when read left to right, starting from `acc`. */
  function ValueFrom(s: string, acc: nat): nat
    requires AllDigits(s)
    decreases |s|
  {
    if s == [] then acc else ValueFrom(s[1..], acc * 10 + DigitValue(s[0]))
  }

  function Value(s: string): nat
    requires AllDigits(s)
  {
    ValueFrom(s, 0)
  }

  /** A non-empty digit string without a leading zero (except "0" itself). */
  predicate Canonical(s: string) {
    |s| > 0 && AllDigits(s) && (s[0] != '0' || |s| == 1)
  }

  lemma {:induction false} ValueFromAppend(p: string, c: char, acc: nat)
    requires AllDigits(p) && IsDigit(c)
    ensures AllDigits(p + [c])
    ensures ValueFrom(p + [c], acc) == ValueFrom(p, acc) * 10 + DigitValue(c)
    decreases |p|
  {
    if p == [] {
      assert p + [c] == [c];
    } else {
      assert (p + [c])[1..] == p[1..] + [c];
      ValueFromAppend(p[1..], c, acc * 10 + DigitValue(p[0]));
    }
  }

  lemma {:induction false} ValueFromAtLeast(s: string, acc: nat)
    requires AllDigits(s)
    ensures ValueFrom(s, acc) >= acc
    decreases |s|
  {
    if s != [] {
      ValueFromAtLeast(s[1..], acc * 10 + DigitValue(s[0]));
    }
  }

  lemma SingleDigitValue(c: char)
    requires IsDigit(c)
    ensures AllDigits([c]) && Value([c]) == DigitValue(c)
  {
    assert [c][1..] == [];
    assert ValueFrom([c], 0) == ValueFrom([], DigitValue(c));
  }

  /** The shortest decimal text of `n`. */
  function NatToString(n: nat): (s: string)
    ensures Canonical(s)
    ensures Value(s) == n
    decreases n
  {
    if n < 10 then
      SingleDigitValue(DigitChar(n));
      [DigitChar(n)]
    else
      var p := NatToString(n / 10);
      ValueFromAppend(p, DigitChar(n % 10), 0);
      p + [DigitChar(n % 10)]
  }

  /** Every canonical digit string is the text of the number it denotes. */
  lemma {:induction false} CanonicalIsNatToString(s: string)
    requires Canonical(s)
    ensures NatToString(Value(s)) == s
    decreases |s|
  {
    if |s| == 1 {
      assert s == [s[0]];
      SingleDigitValue(s[0]);
      assert DigitChar(DigitValue(s[0])) == s[0];
    } else {
      var p, c := s[..|s| - 1], s[|s| - 1];
      assert s == p + [c];
      assert Canonical(p) && p[0] != '0' by {
        assert p[0] == s[0];
      }
      ValueFromAppend(p, c, 0);
      var v := Value(p);
      assert Value(s) == v * 10 + DigitValue(c);
      assert v >= 1 by {
        assert v == ValueFrom(p[1..], DigitValue(p[0]));
        ValueFromAtLeast(p[1..], DigitValue(p[0]));
      }
      assert Value(s) / 10 == v && Value(s) % 10 == DigitValue(c);
      CanonicalIsNatToString(p);
      assert DigitChar(DigitValue(c)) == c;
      assert NatToString(Value(s)) == NatToString(v) + [DigitChar(DigitValue(c))];
    }
  }

  /** Text of a signed integer: a minus sign before the text of its magnitude. */
  function IntToString(n: int): (s: string)
    ensures |s| > 0
    ensures n < 0 <==> s[0] == '-'
    ensures n >= 0 ==> Canonical(s) && Value(s) == n
    ensures n < 0 ==> Canonical(s[1..]) && Value(s[1..]) == -n
  {
    if n < 0 then "-" + NatToString(-n) else NatToString(n)
  }
}

=== FILE: goint.dfy ===
/**
 * The parts of Go's integer semantics the handlers rely on: 64-bit
 * two's-complement wrap-around, division that truncates toward zero, and
 * `strconv.Atoi`, whose error result the handlers discard (so a failed
 * conversion reads as the value it returns alongside the error).
 */
module GoInt {
  import opened Decimal

  const MinInt64: int := -0x8000_0000_0000_0000
  const MaxInt64: int := 0x7fff_ffff_ffff_ffff
  const MaxUint64: int := 0xffff_ffff_ffff_ffff
  const TwoTo64: int := 0x1_0000_0000_0000_0000

  predicate IsInt64(x: int) {
    MinInt64 <= x <= MaxInt64
  }

  type Int64 = x: int | IsInt64(x)

  /** The int64 a Go multiplication or addition actually produces for the exact result `x`. */
  function Wrap64(x: int): (r: int)
    ensures IsInt64(r)
    ensures (x - r) % TwoTo64 == 0
    ensures IsInt64(x) ==> r == x
  {
    var m := x % TwoTo64;
    if m > MaxInt64 then m - TwoTo64 else m
  }

  /** Wrapping to 64 bits keeps an even number even. */
  lemma WrapKeepsEven(x: int)
    requires x % 2 == 0
    ensures Wrap64(x) % 2 == 0
  {
    var q := x / TwoTo64;
    assert x % TwoTo64 == x - q * TwoTo64;
    assert q * TwoTo64 == 2 * (q * 0x8000_0000_0000_0000);
  }

  /** Go's `x / d` for a positive divisor: the quotient rounded toward zero. */
  function Quo(x: int, d: int): (q: int)
    requires d > 0
    ensures x >= 0 ==> q >= 0 && q * d <= x < q * d + d
    ensures x < 0 ==> q <= 0 && q * d - d < x <= q * d
  {
    if x >= 0 then x / d else -((-x) / d)
  }

  /** Outcome of `strconv.ParseUint(s, 10, 64)`. */
  datatype UintParse = SyntaxError | RangeError | Parsed(n: nat)

  /** Threshold at or above which multiplying by ten overflows a uint64. */
  const Cutoff: int := MaxUint64 / 10 + 1

  /**
   * The digit loop of `ParseUint`: characters are examined left to right; a
   * non-digit stops the scan with a syntax error, and an overflow stops it with
   * a range error before any later character is looked at.
   */
  function ScanUint(s: string, acc: nat): (r: UintParse)
    requires acc <= MaxUint64
    ensures r.Parsed? ==> AllDigits(s) && r.n == ValueFrom(s, acc) && r.n <= MaxUint64
    ensures r.SyntaxError? ==> !AllDigits(s)
    decreases |s|
  {
    if s == [] then Parsed(acc)
    else if !IsDigit(s[0]) then SyntaxError
    else if acc >= Cutoff then RangeError
    else if acc * 10 + DigitValue(s[0]) > MaxUint64 then RangeError
    else ScanUint(s[1..], acc * 10 + DigitValue(s[0]))
  }

  /** strconv.ParseUint in base 10: an empty text is a syntax error, like a non-digit. */
  function ParseUint(s: string): (r: UintParse)
    ensures s == [] ==> r.SyntaxError?
    ensures r.SyntaxError? ==> s == [] || !AllDigits(s)
    ensures r.Parsed? ==> s != [] && AllDigits(s) && r.n == Value(s) <= MaxUint64
  {
    if s == [] then SyntaxError else ScanUint(s, 0)
  }

  /** A non-empty digit text whose value fits in a uint64 parses to that value. */
  lemma ParseUintDigits(s: string)
    requires s != [] && AllDigits(s) && Value(s) <= MaxUint64
    ensures ParseUint(s) == Parsed(Value(s))
  {
    ScanUintDigits(s, 0);
  }

  /** Digit strings whose value fits in a uint64 are parsed to that value. */
  lemma {:induction false} ScanUintDigits(s: string, acc: nat)
    requires acc <= MaxUint64
    requires AllDigits(s) && ValueFrom(s, acc) <= MaxUint64
    ensures ScanUint(s, acc) == Parsed(ValueFrom(s, acc))
    decreases |s|
  {
    if s != [] {
      var next := acc * 10 + DigitValue(s[0]);
      ValueFromAtLeast(s[1..], next);
      assert acc < Cutoff;
      ScanUintDigits(s[1..], next);
    }
  }

  /**
   * `strconv.Atoi(s)` with its error ignored: an optional sign, then the
   * unsigned parse; a syntax error gives 0, an out-of-range magnitude gives
   * the nearest int64.
   */
  function Atoi(s: string): (r: int)
    ensures IsInt64(r)
  {
    if s == [] then 0
    else
      var neg := s[0] == '-';
      var magnitude := if s[0] == '-' || s[0] == '+' then s[1..] else s;
      match ParseUint(magnitude)
      case SyntaxError => 0
      case RangeError => if neg then MinInt64 else MaxInt64
      case Parsed(u) =>
        if !neg && u > MaxInt64 then MaxInt64
        else if neg && u > -MinInt64 then MinInt64
        else if neg then -(u as int)
        else u
  }

  /** The nearest int64 to `x`: what Go's integer parsing returns for an out-of-range value. */
  function Clamp64(x: int): (r: int)
    ensures IsInt64(r)
    ensures IsInt64(x) ==> r == x
    ensures x > MaxInt64 ==> r == MaxInt64
    ensures x < MinInt64 ==> r == MinInt64
  {
    if x > MaxInt64 then MaxInt64 else if x < MinInt64 then MinInt64 else x
  }

  /**
   * The scan reports a range error exactly when some leading run of digits
   * already denotes more than MaxUint64; what follows that run is never
   * examined.
   */
  lemma {:induction false} ScanUintRangeError(s: string, acc: nat)
    requires acc <= MaxUint64
    ensures ScanUint(s, acc).RangeError? <==>
              exists k :: 0 < k <= |s| && AllDigits(s[..k]) && ValueFrom(s[..k], acc) > MaxUint64
    decreases |s|
  {
    if s != [] {
      if !IsDigit(s[0]) {
        NonDigitPrefixes(s);
      } else {
        var next := acc * 10 + DigitValue(s[0]);
        DigitPrefixShift(s, acc, 1);
        if next <= MaxUint64 {
          assert acc < Cutoff;
          ScanUintRangeError(s[1..], next);
          if ScanUint(s, acc).RangeError? {
            var j :| 0 < j <= |s[1..]| && AllDigits(s[1..][..j]) && ValueFrom(s[1..][..j], next) > MaxUint64;
            DigitPrefixShift(s, acc, j + 1);
          }
          if exists k :: 0 < k <= |s| && AllDigits(s[..k]) && ValueFrom(s[..k], acc) > MaxUint64 {
            var k :| 0 < k <= |s| && AllDigits(s[..k]) && ValueFrom(s[..k], acc) > MaxUint64;
            DigitPrefixShift(s, acc, k);
          }
        }
      }
    }
  }

  /** No non-empty prefix of a string that starts with a non-digit is all digits. */
  lemma NonDigitPrefixes(s: string)
    requires s != [] && !IsDigit(s[0])
    ensures forall k :: 0 < k <= |s| ==> !AllDigits(s[..k])
  {
    forall k | 0 < k <= |s|
      ensures !AllDigits(s[..k])
    {
      assert s[..k][0] == s[0];
    }
  }

  /** A digit prefix of `s` read from `acc` is its tail's prefix read from the first digit's step. */
  lemma DigitPrefixShift(s: string, acc: nat, k: nat)
    requires 0 < k <= |s| && IsDigit(s[0])
    ensures AllDigits(s[..k]) <==> AllDigits(s[1..][..k - 1])
    ensures AllDigits(s[..k]) ==> ValueFrom(s[..k], acc) == ValueFrom(s[1..][..k - 1], acc * 10 + DigitValue(s[0]))
  {
    assert s[..k][1..] == s[1..][..k - 1];
    assert forall i :: 0 < i < k ==> s[..k][i] == s[1..][..k - 1][i - 1];
  }

  /**
   * Atoi on an optional sign followed by digits: the signed value of the
   * digits, clamped to int64. So "+5" reads 5, "007" reads 7, and a
   * magnitude beyond int64 reads as the nearest bound.
   */
  lemma AtoiDigits(sign: string, d: string)
    requires sign == "" || sign == "+" || sign == "-"
    requires |d| > 0 && AllDigits(d)
    ensures Atoi(sign + d) == Clamp64(if sign == "-" then -(Value(d) as int) else Value(d))
  {
    var s := sign + d;
    var magnitude := if s[0] == '-' || s[0] == '+' then s[1..] else s;
    assert magnitude == d by {
      if sign == "" {
        assert s == d && d[0] != '-' && d[0] != '+';
      } else {
        assert s[1..] == d;
      }
    }
    if Value(d) <= MaxUint64 {
      ScanUintDigits(d, 0);
    } else {
      ScanUintRangeError(d, 0);
      assert d[..|d|] == d;
    }
  }

  /** Quota texts the store would not write: a plus sign, leading zeros, trailing junk. */
  lemma AtoiExamples()
    ensures Atoi("+5") == 5
    ensures Atoi("007") == 7
    ensures Atoi("5x") == 0
  {
    assert "+5" == "+" + "5";
    SingleDigitValue('5');
    assert "5" == ['5'];
    AtoiDigits("+", "5");
    assert Value("007") == 7 by {
      assert "007"[1..] == "07" && "07"[1..] == "7" && "7"[1..] == [];
    }
    assert "007" == "" + "007";
    AtoiDigits("", "007");
    assert "5x"[1..] == "x";
    assert ScanUint("x", 5) == SyntaxError;
  }

  /** Atoi reads back every int64 from its decimal text. */
  lemma AtoiIntToString(n: int)
    requires IsInt64(n)
    ensures Atoi(IntToString(n)) == n
  {
    var s := IntToString(n);
    if n < 0 {
      var digits := NatToString(-n);
      assert s[1..] == digits;
      ScanUintDigits(digits, 0);
    } else {
      var digits := NatToString(n);
      assert s == digits && s[0] != '-' && s[0] != '+';
      ScanUintDigits(digits, 0);
    }
  }

  /** Text that does not begin with a digit (after an optional sign) reads as 0. */
  lemma AtoiNonNumeric(s: string)
    requires var m := if |s| > 0 && (s[0] == '-' || s[0] == '+') then s[1..] else s;
             m == [] || !IsDigit(m[0])
    ensures Atoi(s) == 0
  {
  }
}

=== FILE: helpers.dfy ===
/**
 * The two URL helpers the shorten handler calls. Both are purely textual:
 * neither parses the URL, they only compare and strip prefixes. The service's
 * own domain, read from the environment by the source, is a parameter here.
 */
module Helpers {

  predicate HasPrefix(s: string, p: string) {
    |p| <= |s| && s[..|p|] == p
  }

  /** Go's `strings.TrimPrefix`: drop `p` once from the front of `s` when it is there. */
  function TrimPrefix(s: string, p: string): (r: string)
    ensures HasPrefix(s, p) ==> p + r == s
    ensures !HasPrefix(s, p) ==> r == s
  {
    if HasPrefix(s, p) then s[|p|..] else s
  }

  /** Go's `strings.Split(s, "/")[0]`: the text before the first '/', or all of `s`. */
  function FirstSegment(s: string): (r: string)
    ensures HasPrefix(s, r)
    ensures '/' !in r
    ensures r == s || s[|r|] == '/'
    decreases |s|
  {
    if s == [] || s[0] == '/' then [] else [s[0]] + FirstSegment(s[1..])
  }

  /** Prefix "http" is added as "http://" unless the text already starts with "http". */
  function EnforceHTTP(url: string): (r: string)
    ensures HasPrefix(r, "http")
    ensures HasPrefix(url, "http") ==> r == url
    ensures !HasPrefix(url, "http") ==> r == "http://" + url
    ensures |url| <= |r| && r[|r| - |url|..] == url
  {
    if !HasPrefix(url, "http") then "http://" + url else url
  }

  /**
   * The test is on the first four characters only: a host that merely starts
   * with "http" gets no scheme, so "httpbin.org/get" is kept without one.
   */
  lemma HttpNamedHostKeepsNoScheme()
    ensures EnforceHTTP("httpbin.org/get") == "httpbin.org/get"
    ensures !HasPrefix("httpbin.org/get", "http://") && !HasPrefix("httpbin.org/get", "https://")
  {
    assert "httpbin.org/get"[..4] == "http";
    NotPrefixAt("httpbin.org/get", "http://", 4);
    NotPrefixAt("httpbin.org/get", "https://", 4);
  }

  /** Adding the scheme twice changes nothing more than adding it once. */
  lemma EnforceHTTPIdempotent(url: string)
    ensures EnforceHTTP(EnforceHTTP(url)) == EnforceHTTP(url)
  {
  }

  /** The three prefix strips applied, in order, before the host is cut out. */
  function StripHttp(url: string): string { TrimPrefix(url, "http://") }
  function StripHttps(url: string): string { TrimPrefix(StripHttp(url), "https://") }
  function Stripped(url: string): string { TrimPrefix(StripHttps(url), "www.") }

  /** Only one '/'-free prefix of `s` ends at a '/' or at the end of `s`. */
  lemma FirstSegmentUnique(s: string, d: string)
    requires '/' !in d && HasPrefix(s, d)
    requires d == s || s[|d|] == '/'
    ensures FirstSegment(s) == d
  {
  }

  /** The text RemoveDomainError compares with the domain: the '/'-free start of the stripped URL. */
  function ExtractHost(url: string): (host: string)
    ensures '/' !in host
    ensures HasPrefix(Stripped(url), host)
    ensures host == Stripped(url) || Stripped(url)[|host|] == '/'
  {
    FirstSegment(Stripped(url))
  }

  /** The host is `domain` exactly when the stripped URL is `domain` itself or `domain` then '/'. */
  lemma ExtractHostIs(url: string, domain: string)
    ensures ExtractHost(url) == domain <==>
              '/' !in domain && HasPrefix(Stripped(url), domain) &&
              (Stripped(url) == domain || Stripped(url)[|domain|] == '/')
  {
    var s := Stripped(url);
    if '/' !in domain && HasPrefix(s, domain) && (s == domain || s[|domain|] == '/') {
      FirstSegmentUnique(s, domain);
    }
  }

  /**
   * False (reject) when `url` is exactly the domain, or when its host, found by
   * textual stripping, is the domain; true otherwise. So "d.io/x" and
   * "https://www.d.io" are rejected for "d.io", but "d.io.evil.com" is not.
   */
  function RemoveDomainError(url: string, domain: string): (ok: bool)
    // the first and last clauses are corollaries of the middle one, kept for readers
    ensures url == domain ==> !ok
    ensures !ok <==>
              (|| url == domain
               || ('/' !in domain && HasPrefix(Stripped(url), domain) &&
                   (Stripped(url) == domain || Stripped(url)[|domain|] == '/')))
    ensures '/' in domain ==> (ok <==> url != domain)
  {
    if url == domain then false
    else
      ExtractHostIs(url, domain);
      ExtractHost(url) != domain
  }

  /** A domain text that is not itself a scheme fragment or a "www." name. */
  predicate PlainHost(h: string) {
    '/' !in h && !HasPrefix(h, "www.") && h != "http:" && h != "https:"
  }

  lemma TrimPrefixConcat(p: string, rest: string)
    ensures TrimPrefix(p + rest, p) == rest
  {
    assert (p + rest)[..|p|] == p;
  }

  lemma {:induction false} FirstSegmentOf(h: string, path: string)
    requires '/' !in h
    requires path == [] || path[0] == '/'
    ensures FirstSegment(h + path) == h
    decreases |h|
  {
    if h != [] {
      assert (h + path)[1..] == h[1..] + path;
      FirstSegmentOf(h[1..], path);
      assert [h[0]] + h[1..] == h;
    }
  }

  lemma NotPrefixAt(s: string, p: string, i: nat)
    requires i < |p| && i < |s| && s[i] != p[i]
    ensures !HasPrefix(s, p)
  {
    if |p| <= |s| {
      assert s[..|p|][i] == s[i];
    }
  }

  /** The text a host of this shape leaves after the three strips. */
  lemma StrippedOwnDomain(www: string, domain: string, path: string)
    requires www == "" || www == "www."
    requires PlainHost(domain)
    requires path == [] || path[0] == '/'
    ensures Stripped(www + domain + path) == domain + path
  {
    var u := www + domain + path;
    if www == "www." {
      assert u == "www." + (domain + path);
      assert u[0] == 'w';
      NotPrefixAt(u, "http://", 0);
      NotPrefixAt(u, "https://", 0);
      TrimPrefixConcat("www.", domain + path);
    } else {
      assert u == domain + path;
      NoSchemeAhead(domain, path);
    }
  }

  /**
   * A '/'-free host followed by a path starts with `p` only if the host does, or
   * the host is a start of `p` that `p` continues with '/'.
   */
  lemma NotPrefixOfHostPath(domain: string, path: string, p: string)
    requires '/' !in domain
    requires path == [] || path[0] == '/'
    requires |domain| >= |p| ==> domain[..|p|] != p
    requires |domain| < |p| ==> p[..|domain|] != domain || p[|domain|] != '/'
    ensures !HasPrefix(domain + path, p)
  {
    var u := domain + path;
    if |p| <= |u| {
      if |domain| >= |p| {
        assert u[..|p|] == domain[..|p|];
      } else if p[..|domain|] != domain {
        assert u[..|p|][..|domain|] == domain;
      } else {
        assert u[..|p|][|domain|] == u[|domain|] == '/';
      }
    }
  }

  /** A plain host followed by a path starts with none of the stripped prefixes. */
  lemma NoSchemeAhead(domain: string, path: string)
    requires PlainHost(domain)
    requires path == [] || path[0] == '/'
    ensures !HasPrefix(domain + path, "http://")
    ensures !HasPrefix(domain + path, "https://")
    ensures !HasPrefix(domain + path, "www.")
  {
    if |domain| >= 6 {
      assert domain[5] != '/';
    }
    if |domain| >= 7 {
      assert domain[6] != '/';
    }
    NotPrefixOfHostPath(domain, path, "http://");
    NotPrefixOfHostPath(domain, path, "https://");
    NotPrefixOfHostPath(domain, path, "www.");
  }

  /**
   * A URL naming the service's own host is rejected whatever scheme prefix,
   * "www." prefix or path it carries.
   */
  lemma OwnDomainRejected(scheme: string, www: string, domain: string, path: string)
    requires scheme == "" || scheme == "http://" || scheme == "https://"
    requires www == "" || www == "www."
    requires PlainHost(domain)
    requires path == [] || path[0] == '/'
    ensures !RemoveDomainError(scheme + www + domain + path, domain)
  {
    var url := scheme + www + domain + path;
    var rest := www + domain + path;
    assert url == scheme + rest;
    StrippedOwnDomain(www, domain, path);
    if scheme == "http://" {
      TrimPrefixConcat("http://", rest);
      assert StripHttp(url) == rest;
      assert StripHttps(url) == TrimPrefix(rest, "https://");
    } else if scheme == "https://" {
      NotPrefixAt(url, "http://", 4);
      TrimPrefixConcat("https://", rest);
      assert StripHttps(url) == rest;
    } else {
      assert url == rest;
    }
    assert Stripped(url) == domain + path;
    FirstSegmentOf(domain, path);
  }

  /** `s` cannot grow into `pat`: stripping `pat` from `s + q` is the same as from `s`. */
  predicate Settled(s: string, pat: string) {
    |s| >= |pat| || !HasPrefix(pat, s)
  }

  lemma TrimPrefixAppend(s: string, q: string, pat: string)
    requires Settled(s, pat)
    ensures TrimPrefix(s + q, pat) == TrimPrefix(s, pat) + q
  {
    if |s| >= |pat| {
      assert (s + q)[..|pat|] == s[..|pat|];
      if HasPrefix(s, pat) {
        assert (s + q)[|pat|..] == s[|pat|..] + q;
      }
    } else {
      assert pat[..|s|] != s;
      if |pat| <= |s + q| {
        assert (s + q)[..|pat|][..|s|] == s;
      }
    }
  }

  lemma FirstSegmentAppend(s: string, q: string)
    requires '/' in s
    ensures FirstSegment(s + q) == FirstSegment(s)
    decreases |s|
  {
    if s[0] != '/' {
      assert (s + q)[1..] == s[1..] + q;
      FirstSegmentAppend(s[1..], q);
    }
  }

  /** None of the strip stages of `u` is a proper prefix of the text it is matched against. */
  predicate SchemeSettled(u: string) {
    Settled(u, "http://") && Settled(StripHttp(u), "https://") && Settled(StripHttps(u), "www.")
  }

  /** Text appended after a '/' that survives stripping never changes the extracted host. */
  lemma {:induction false} HostIgnoresSuffix(u: string, q: string)
    requires SchemeSettled(u)
    requires '/' in Stripped(u)
    ensures ExtractHost(u + q) == ExtractHost(u)
  {
    TrimPrefixAppend(u, q, "http://");
    TrimPrefixAppend(StripHttp(u), q, "https://");
    TrimPrefixAppend(StripHttps(u), q, "www.");
    assert Stripped(u + q) == Stripped(u) + q;
    FirstSegmentAppend(Stripped(u), q);
  }

  lemma EndsWithSlashAfterTrim(s: string, pat: string)
    requires |s| > 0 && s[|s| - 1] == '/'
    requires Settled(s, pat)
    ensures |TrimPrefix(s, pat)| > 0 ==> TrimPrefix(s, pat)[|TrimPrefix(s, pat)| - 1] == '/'
    ensures TrimPrefix(s, pat) == [] ==> s == pat
  {
  }

  /**
   * For a URL `h + "/" + p` whose scheme prefixes are settled by `h + "/"`, the
   * path `p` after the first '/' is irrelevant to the own-domain check.
   */
  lemma PathIrrelevant(h: string, p: string, domain: string)
    requires SchemeSettled(h + "/")
    requires h + "/" + p != domain && h + "/" != domain
    ensures RemoveDomainError(h + "/" + p, domain) == RemoveDomainError(h + "/", domain)
  {
    var u := h + "/";
    SettledKeepsSlash(u);
    HostIgnoresSuffix(u, p);
    assert u + p == h + "/" + p;
  }

  /** A trailing '/' survives the strip stages of a settled URL. */
  lemma SettledKeepsSlash(u: string)
    requires SchemeSettled(u) && |u| > 0 && u[|u| - 1] == '/'
    ensures '/' in Stripped(u)
  {
    // an empty stage would be a proper prefix of the next pattern, which settledness excludes
    assert HasPrefix("https://", []) && HasPrefix("www.", []);
    EndsWithSlashAfterTrim(u, "http://");
    assert |StripHttp(u)| > 0;
    EndsWithSlashAfterTrim(StripHttp(u), "https://");
    assert |StripHttps(u)| > 0;
    EndsWithSlashAfterTrim(StripHttps(u), "www.");
    assert StripHttps(u) != "www.";
    var s := Stripped(u);
    assert s[|s| - 1] == '/';
  }

  /**
   * Without the settled condition the path does matter: "http:" + "/" + "/d.io"
   * is rejected for domain "d.io", while "http:" + "/" is not.
   */
  lemma PathMattersWhenUnsettled()
    ensures !RemoveDomainError("http:" + "/" + "/d.io", "d.io")
    ensures RemoveDomainError("http:" + "/", "d.io")
  {
    assert "http:" + "/" + "/d.io" == "http://" + "d.io";
    TrimPrefixConcat("http://", "d.io");
    NotPrefixAt("d.io", "https://", 0);
    NotPrefixAt("d.io", "www.", 0);
    FirstSegmentOf("d.io", "");
    assert "d.io" + "" == "d.io";
    NotPrefixAt("http:/", "https://", 4);
    NotPrefixAt("http:/", "www.", 0);
    FirstSegmentOf("http:", "/");
  }

  /** A host that only starts with the domain is a different host and is accepted. */
  lemma LookalikeHostAccepted()
    ensures RemoveDomainError("d.io.evil.com", "d.io")
    ensures RemoveDomainError("https://d.io.evil.com/x", "d.io")
  {
    var u := "https://d.io.evil.com/x";
    NotPrefixAt(u, "http://", 4);
    assert u == "https://" + "d.io.evil.com/x";
    TrimPrefixConcat("https://", "d.io.evil.com/x");
    NotPrefixAt("d.io.evil.com/x", "www.", 0);
    assert Stripped(u)[4] == '.';
    NotPrefixAt("d.io.evil.com", "http://", 0);
    NotPrefixAt("d.io.evil.com", "https://", 0);
    NotPrefixAt("d.io.evil.com", "www.", 0);
    assert Stripped("d.io.evil.com")[4] == '.';
  }

  /**
   * A configured domain that itself starts with "www." is not protected: its
   * own URLs with a path lose the "www." and no longer match it.
   */
  lemma WwwDomainNotProtected(rest: string, path: string)
    requires '/' !in rest
    requires path == [] || path[0] == '/'
    requires |path| > 0
    ensures RemoveDomainError("www." + rest + path, "www." + rest)
  {
    var url := "www." + rest + path;
    assert url == "www." + (rest + path);
    NotPrefixAt(url, "http://", 0);
    NotPrefixAt(url, "https://", 0);
    TrimPrefixConcat("www.", rest + path);
    FirstSegmentOf(rest, path);
    assert |ExtractHost(url)| < |"www." + rest|;
  }
}

=== FILE: properties.dfy ===
/**
 * Properties that relate several handler calls over the same two databases.
 */
module Properties {
  import opened Decimal
  import opened GoInt
  import opened Helpers
  import opened Store
  import opened Shorten
  import opened Resolve
  import opened Count

  /**
   * Round trip: after a successful shorten, resolving the chosen id redirects
   * to the scheme-normalised URL (the value handed to the redirect).
   */
  lemma ShortenThenResolve(req: Request, ip: string, isUrl: bool, generated: string,
                           env: Env, db0: Db, db1: Db)
    requires IsGeneratedId(generated)
    requires !db0.readsFail
    requires ShortenUrl(Some(req), ip, isUrl, generated, env, db0, db1).response.Shortened?
    ensures var h := ShortenUrl(Some(req), ip, isUrl, generated, env, db0, db1);
            var r := ResolveUrl(ShortId(req, generated), h.db0, h.db1);
            && r.response == Redirect(EnforceHTTP(req.url))
            && h.response.short == env.domain + "/" + ShortId(req, generated)
            && r.db0 == h.db0
  {
  }

  /**
   * Submitting the same custom short twice: the second request can no longer
   * succeed; it is refused as in use, or earlier by the quota.
   */
  lemma CustomShortTwice(req: Request, ip: string, isUrl: bool, generated: string, generated': string,
                         env: Env, db0: Db, db1: Db)
    requires IsGeneratedId(generated) && IsGeneratedId(generated')
    requires req.customShort != ""
    requires !db0.readsFail
    requires ShortenUrl(Some(req), ip, isUrl, generated, env, db0, db1).response.Shortened?
    ensures var h := ShortenUrl(Some(req), ip, isUrl, generated, env, db0, db1);
            var h' := ShortenUrl(Some(req), ip, isUrl, generated', env, h.db0, h.db1);
            && (h'.response == ShortInUse || h'.response.RateLimitExceeded?)
            && h'.db0 == h.db0
  {
    var h := ShortenUrl(Some(req), ip, isUrl, generated, env, db0, db1);
    ShortenedIff(Some(req), ip, isUrl, generated, env, db0, db1);
    assert StoredMapping(h, req, generated, env, db0);
    assert ShortId(req, generated') == req.customShort == ShortId(req, generated);
    assert !h.db0.readsFail && h.db0.entries[req.customShort].value == EnforceHTTP(req.url);
    assert HasPrefix(EnforceHTTP(req.url), "http");
    if CheckQuota(h.db1, ip, env.apiQuota).Admit? {
      IdInUse(req, ip, generated', env, h.db0, h.db1);
    }
  }

  /**
   * As written, an error on the uniqueness read counts as a free id: when
   * that read fails but the write goes through, an existing mapping is
   * overwritten.
   */
  lemma GuardReadErrorOverwrites(req: Request, ip: string, generated: string, env: Env, db0: Db, db1: Db)
    requires IsGeneratedId(generated)
    requires db0.readsFail && !db0.writesFail
    requires CheckQuota(db1, ip, env.apiQuota).Admit?
    requires RemoveDomainError(req.url, env.domain)
    ensures var h := ShortenUrl(Some(req), ip, true, generated, env, db0, db1);
            && h.response.Shortened?
            && h.db0.entries[ShortId(req, generated)].value == EnforceHTTP(req.url)
  {
  }

  /** One shorten request of a client, with the inputs the handler does not compute itself. */
  datatype Call = Call(body: Option<Request>, isUrl: bool, generated: string)

  predicate WellFormed(calls: seq<Call>) {
    forall i :: 0 <= i < |calls| ==> IsGeneratedId(calls[i].generated)
  }

  /** How many of the calls, made in order by one client, were answered with a short URL. */
  function Successes(calls: seq<Call>, ip: string, env: Env, db0: Db, db1: Db): nat
    requires WellFormed(calls)
    decreases |calls|
  {
    if calls == [] then 0
    else
      var h := ShortenUrl(calls[0].body, ip, calls[0].isUrl, calls[0].generated, env, db0, db1);
      (if h.response.Shortened? then 1 else 0) + Successes(calls[1..], ip, env, h.db0, h.db1)
  }

  lemma SuccessesStep(calls: seq<Call>, ip: string, env: Env, db0: Db, db1: Db)
    requires WellFormed(calls) && calls != []
    ensures WellFormed(calls[1..])
    ensures var h := ShortenUrl(calls[0].body, ip, calls[0].isUrl, calls[0].generated, env, db0, db1);
            Successes(calls, ip, env, db0, db1) ==
              (if h.response.Shortened? then 1 else 0) + Successes(calls[1..], ip, env, h.db0, h.db1)
  {
  }

  /**
   * One call by a client whose stored quota is the text of m: a success is
   * possible only when m > 0, and then leaves m - 1; otherwise m stays.
   */
  lemma QuotaStep(c: Call, ip: string, env: Env, db0: Db, db1: Db, m: int)
    requires IsGeneratedId(c.generated)
    requires !db1.writesFail && IsInt64(m)
    requires ip in db1.entries && db1.entries[ip].value == IntToString(m)
    ensures var h := ShortenUrl(c.body, ip, c.isUrl, c.generated, env, db0, db1);
            && !h.db1.writesFail
            && ip in h.db1.entries
            && (h.response.Shortened? ==> m > 0 && h.db1.entries[ip].value == IntToString(m - 1))
            && (!h.response.Shortened? ==> h.db1.entries[ip].value == IntToString(m))
  {
    var h := ShortenUrl(c.body, ip, c.isUrl, c.generated, env, db0, db1);
    if c.body.Some? && !db1.readsFail {
      AtoiIntToString(m);
      assert AfterQuotaCheck(db1, ip, env.apiQuota) == db1 || m <= 0;
      if h.response.Shortened? {
        RedisIntegerIff(IntToString(m), m);
        SuccessConsumesOne(c.body.value, ip, c.isUrl, c.generated, env, db0, db1, m);
      }
    }
  }

  /**
   * Over any sequence of requests by one client, a stored quota of m allows
   * at most m successes (none when m <= 0), as long as time does not run the
   * window out and writes to database 1 succeed.
   */
  lemma {:induction false} QuotaBound(calls: seq<Call>, ip: string, env: Env, db0: Db, db1: Db, m: int)
    requires WellFormed(calls)
    requires !db1.writesFail && IsInt64(m)
    requires ip in db1.entries && db1.entries[ip].value == IntToString(m)
    ensures Successes(calls, ip, env, db0, db1) <= if m > 0 then m else 0
    decreases |calls|
  {
    if calls != [] {
      var c := calls[0];
      var h := ShortenUrl(c.body, ip, c.isUrl, c.generated, env, db0, db1);
      SuccessesStep(calls, ip, env, db0, db1);
      QuotaStep(c, ip, env, db0, db1, m);
      if h.response.Shortened? {
        QuotaBound(calls[1..], ip, env, h.db0, h.db1, m - 1);
      } else {
        QuotaBound(calls[1..], ip, env, h.db0, h.db1, m);
      }
    }
  }

  /**
   * A first-seen client whose configured quota is the text of q gets at most
   * q successes, but always at least one: the initialisation is not checked,
   * so even a quota of 0 lets one request through.
   */
  lemma {:induction false} FreshClientBound(calls: seq<Call>, ip: string, env: Env, db0: Db, db1: Db, q: int)
    requires WellFormed(calls)
    requires !db1.writesFail && IsInt64(q)
    requires ip !in db1.entries && env.apiQuota == IntToString(q)
    ensures Successes(calls, ip, env, db0, db1) <= if q > 1 then q else 1
    decreases |calls|
  {
    if calls != [] {
      var c := calls[0];
      var h := ShortenUrl(c.body, ip, c.isUrl, c.generated, env, db0, db1);
      SuccessesStep(calls, ip, env, db0, db1);
      if c.body.None? || db1.readsFail {
        assert h.db0 == db0 && h.db1 == db1;
        FreshClientBound(calls[1..], ip, env, h.db0, h.db1, q);
      } else {
        var admitted := AfterQuotaCheck(db1, ip, env.apiQuota);
        assert admitted.entries[ip].value == IntToString(q);
        if h.response.Shortened? {
          SuccessIsPersist(c.body.value, ip, c.isUrl, c.generated, env, db0, db1);
          RedisIntegerIff(IntToString(q), q);
          if q > MinInt64 {
            SuccessConsumesOne(c.body.value, ip, c.isUrl, c.generated, env, db0, db1, q);
            QuotaBound(calls[1..], ip, env, h.db0, h.db1, q - 1);
          } else {
            assert h.db1 == IncrBy(admitted, ip, -1).db == admitted;
            QuotaBound(calls[1..], ip, env, h.db0, h.db1, q);
          }
        } else {
          QuotaBound(calls[1..], ip, env, h.db0, h.db1, q);
        }
      }
    }
  }

  /** How many of the calls, made in order by one client, were refused by the quota. */
  function Denials(calls: seq<Call>, ip: string, env: Env, db0: Db, db1: Db): nat
    requires WellFormed(calls)
    decreases |calls|
  {
    if calls == [] then 0
    else
      var h := ShortenUrl(calls[0].body, ip, calls[0].isUrl, calls[0].generated, env, db0, db1);
      (if h.response.RateLimitExceeded? then 1 else 0) + Denials(calls[1..], ip, env, h.db0, h.db1)
  }

  /**
   * While database 1 accepts no writes, a client it has no quota key for is
   * never refused by the quota, over any sequence of requests and whatever the
   * configured quota.
   */
  lemma {:induction false} FailOpenNeverDenied(calls: seq<Call>, ip: string, env: Env, db0: Db, db1: Db)
    requires WellFormed(calls)
    requires !db1.readsFail && db1.writesFail && ip !in db1.entries
    ensures Denials(calls, ip, env, db0, db1) == 0
    decreases |calls|
  {
    if calls != [] {
      var c := calls[0];
      var h := ShortenUrl(c.body, ip, c.isUrl, c.generated, env, db0, db1);
      QuotaFailsOpen(c.body, ip, c.isUrl, c.generated, env, db0, db1);
      assert WellFormed(calls[1..]);
      FailOpenNeverDenied(calls[1..], ip, env, h.db0, h.db1);
    }
  }

  /**
   * While database 1 accepts no writes, a client whose stored quota reads as
   * positive is never refused, over any sequence of requests: nothing charges it.
   */
  lemma {:induction false} WriteFailureNeverDenied(calls: seq<Call>, ip: string, env: Env, db0: Db, db1: Db)
    requires WellFormed(calls)
    requires !db1.readsFail && db1.writesFail && ip in db1.entries && Atoi(db1.entries[ip].value) > 0
    ensures Denials(calls, ip, env, db0, db1) == 0
    decreases |calls|
  {
    if calls != [] {
      var c := calls[0];
      var h := ShortenUrl(c.body, ip, c.isUrl, c.generated, env, db0, db1);
      WriteFailureNeverCharges(c.body, ip, c.isUrl, c.generated, env, db0, db1);
      assert WellFormed(calls[1..]);
      WriteFailureNeverDenied(calls[1..], ip, env, h.db0, h.db1);
    }
  }

  /**
   * The count handler reads database 0 while redirects are counted in
   * database 1, so resolving never changes what the count handler reports.
   */
  lemma CountIgnoresRedirects(id: string, db0: Db, db1: Db)
    ensures var r := ResolveUrl(id, db0, db1);
            UrlCount(r.db0, r.db1).response == UrlCount(db0, db1).response
  {
  }

  /**
   * Shortening changes what the count handler reports only when the chosen id
   * is the key the count handler reads, which a generated id never is.
   */
  lemma CountChangesOnlyThroughItsKey(body: Option<Request>, ip: string, isUrl: bool, generated: string,
                                      env: Env, db0: Db, db1: Db)
    requires IsGeneratedId(generated)
    ensures var h := ShortenUrl(body, ip, isUrl, generated, env, db0, db1);
            UrlCount(h.db0, h.db1).response != UrlCount(db0, db1).response ==>
              body.Some? && body.value.customShort == GeneratedKey
  {
    var h := ShortenUrl(body, ip, isUrl, generated, env, db0, db1);
    if !(body.Some? && body.value.customShort == GeneratedKey) {
      if h.response.Shortened? {
        var id := ShortId(body.value, generated);
        assert id != GeneratedKey by {
          if body.value.customShort == "" {
            assert generated[0] in "0123456789abcdef";
          }
        }
        assert GeneratedKey in h.db0.entries <==> GeneratedKey in db0.entries;
        assert Get(h.db0, GeneratedKey) == Get(db0, GeneratedKey);
      } else {
        assert h.db0 == db0;
      }
    }
  }
}

=== FILE: resolve.dfy ===
/**
 * The resolve handler (GET /{id}): look the id up in database 0 and redirect
 * to the stored URL, counting the redirect in database 1 on the way. The
 * counter increment is best effort: its outcome never reaches the response.
 */
module Resolve {
  import opened Decimal
  import opened GoInt
  import opened Store

  datatype Response = NotFound | CannotConnect | Redirect(location: string)

  /** The HTTP status of each response; 301 is reserved for a redirect. */
  function StatusCode(r: Response): (code: int)
    ensures code == 301 <==> r.Redirect?
    ensures !r.Redirect? ==> 400 <= code < 600
  {
    match r
    case NotFound => 404
    case CannotConnect => 500
    case Redirect(_) => 301
  }

  /** The database 1 key counting redirects. */
  const CounterKey: string := "counter"

  function ResolveUrl(id: string, db0: Db, db1: Db): (h: Handled<Response>)
    ensures h.db0 == db0
    ensures StatusCode(h.response) == (if db0.readsFail then 500 else if id in db0.entries then 301 else 404)
    ensures h.response == NotFound <==> !db0.readsFail && id !in db0.entries
    ensures h.response == CannotConnect <==> db0.readsFail
    ensures h.response.Redirect? ==> id in db0.entries && h.response.location == db0.entries[id].value
    ensures !h.response.Redirect? ==> h.db1 == db1
    ensures SameExcept(db1, h.db1, CounterKey)
  {
    match Get(db0, id)
    case Missing => Handled(NotFound, db0, db1)
    case Failed => Handled(CannotConnect, db0, db1)
    case Found(url) => Handled(Redirect(url), db0, IncrBy(db1, CounterKey, 1).db)
  }

  /**
   * A redirect adds exactly one to the counter, an absent counter counting as
   * 0, whenever the store can perform the increment; otherwise database 1 is
   * left as it was. The response is the same either way.
   */
  lemma RedirectCounted(id: string, db0: Db, db1: Db)
    requires !db0.readsFail && id in db0.entries
    ensures var h := ResolveUrl(id, db0, db1);
            && h.response == Redirect(db0.entries[id].value)
            && (!db1.writesFail && CounterKey !in db1.entries ==>
                  h.db1.entries[CounterKey] == Entry("1", Persistent))
            && (forall n :: !db1.writesFail && Counter(db1, CounterKey) == Some(n) && n < MaxInt64 ==>
                  Counter(h.db1, CounterKey) == Some(n + 1))
            && (db1.writesFail ==> h.db1 == db1)
  {
    var w := IncrBy(db1, CounterKey, 1);
    if !db1.writesFail && CounterKey !in db1.entries {
      RedisIntegerIff(w.db.entries[CounterKey].value, 1);
      assert IntToString(1) == "1";
    }
  }
}

=== FILE: shorten.dfy ===
/**
 * The shorten handler (POST /api/v1/): quota check against database 1 keyed
 * by client IP, URL validation, own-domain rejection, scheme normalisation,
 * id choice, uniqueness guard and persistence in database 0, then the quota
 * decrement. The JSON decoding outcome, the URL validator's verdict and the
 * random id are inputs.
 */
module Shorten {
  import opened Decimal
  import opened GoInt
  import opened Helpers
  import opened Store

  /** The environment values the handler reads: its own domain and the per-window quota text. */
  datatype Env = Env(domain: string, apiQuota: string)

  /** The decoded body; `expiry` is a Go duration that the service counts in hours. */
  datatype Request = Request(url: string, customShort: string, expiry: Int64)

  datatype Response =
    | CannotParseJson
    | RateLimitExceeded(rateLimitReset: int)
    | InvalidUrl
    | ServiceUnavailable
    | ShortInUse
    | CannotConnect
    | Shortened(url: string, short: string, expiry: Int64, rateLimit: int, rateLimitReset: int)

  /** The HTTP status of each response; 200 is reserved for a successful request. */
  function StatusCode(r: Response): (code: int)
    ensures code == 200 <==> r.Shortened?
    ensures !r.Shortened? ==> 400 <= code < 600
  {
    match r
    case CannotParseJson => 400
    case RateLimitExceeded(_) => 503
    case InvalidUrl => 400
    case ServiceUnavailable => 503
    case ShortInUse => 403
    case CannotConnect => 500
    case Shortened(_, _, _, _, _) => 200
  }

  const NsPerMinute: int := 60 * NsPerSecond
  const NsPerHour: int := 3600 * NsPerSecond
  /** The quota window, 30 minutes, as a Go duration. */
  const QuotaWindowNs: int := 30 * NsPerMinute
  /** The largest expiry, in hours, whose duration fits in an int64 (MaxInt64 / NsPerHour). */
  const MaxExpiryHours: int := 2_562_047

  /** A TTL reading (a Go duration) divided down to whole minutes, truncating. */
  function ResetMinutes(d: int): (m: int)
    requires d >= -2
    ensures m >= 0
    ensures m * NsPerMinute <= d < m * NsPerMinute + NsPerMinute || (d < 0 && m == 0)
  {
    Quo(d, NsPerMinute)
  }

  /** The first six characters of a random UUID's text: lower-case hex digits. */
  predicate IsGeneratedId(g: string) {
    |g| == 6 && forall i :: 0 <= i < |g| ==> g[i] in "0123456789abcdef"
  }

  /** The key the mapping is stored under: the custom short when given, else the generated id. */
  function ShortId(req: Request, generated: string): (id: string)
    ensures id == generated || id == req.customShort
    ensures generated != "" ==> id != ""
    ensures req.customShort != "" ==> id == req.customShort
  {
    if req.customShort == "" then generated else req.customShort
  }

  /** Outcome of the quota step: go on with database 1 as it now is, or reject. */
  datatype Gate = Admit(db1: Db) | Deny(rateLimitReset: int)

  /**
   * The quota step. An absent client key is set to the configured quota text
   * with the 30-minute window (a failed write is ignored) and the request goes
   * on; any other reply, an error included, is read as an integer and a
   * value of 0 or less rejects the request with the window's remaining minutes.
   */
  function CheckQuota(db1: Db, ip: string, apiQuota: string): (g: Gate)
    ensures g.Deny? <==> !Get(db1, ip).Missing? && Atoi(Text(Get(db1, ip))) <= 0
    ensures g.Deny? ==> g.rateLimitReset == ResetMinutes(TtlDuration(db1, ip))
    ensures g.Admit? ==> SameExcept(db1, g.db1, ip)
    ensures g.Admit? && ip in db1.entries ==> g.db1 == db1
    ensures g.Admit? && db1.writesFail ==> g.db1 == db1
    ensures g.Admit? && ip !in db1.entries && !db1.writesFail ==>
              ip in g.db1.entries && g.db1.entries[ip] == Entry(apiQuota, ExpiresMs(30 * 60 * 1000))
  {
    var reply := Get(db1, ip);
    if reply.Missing? then
      Admit(Set(db1, ip, apiQuota, QuotaWindowNs).db)
    else if Atoi(Text(reply)) <= 0 then
      Deny(ResetMinutes(TtlDuration(db1, ip)))
    else
      Admit(db1)
  }

  /** Database 1 as the rest of the handler sees it after the quota step. */
  function AfterQuotaCheck(db1: Db, ip: string, apiQuota: string): Db {
    match CheckQuota(db1, ip, apiQuota)
    case Admit(q) => q
    case Deny(_) => db1
  }

  /** Expiry 0 means the default of 24 hours; every other value is kept. */
  function EffectiveExpiry(e: Int64): (r: Int64)
    ensures r != 0
    ensures e == 0 ==> r == 24
    ensures e != 0 ==> r == e
  {
    if e == 0 then 24 else e
  }

  /**
   * The expiration passed to SET: `expiry` hours as a Go duration, with int64
   * wrap-around. It is always even, so it is never the keep-TTL value -1.
   */
  function MappingTtlNs(expiry: Int64): (ns: int)
    ensures IsInt64(ns)
    ensures IsInt64(expiry * NsPerHour) ==> ns == expiry * NsPerHour
    ensures ns % 2 == 0 && ns != KeepTtl
  {
    HourProductWraps(expiry);
    Wrap64(expiry * NsPerHour)
  }

  /** Any number of hours in nanoseconds is even, and wrapping keeps it so. */
  lemma HourProductWraps(expiry: int)
    ensures Wrap64(expiry * NsPerHour) % 2 == 0
  {
    var x := expiry * NsPerHour;
    assert x % 2 == 0 by {
      assert x == (expiry * 1_800_000_000_000) * 2;
    }
    WrapKeepsEven(x);
  }

  /**
   * An expiry of up to MaxExpiryHours hours gives the mapping a TTL of that
   * many hours; a negative one gives it no TTL at all.
   */
  lemma MappingTtl(expiry: Int64, previous: Ttl)
    requires -MaxExpiryHours <= expiry <= MaxExpiryHours
    ensures expiry > 0 ==> TtlAfterSet(MappingTtlNs(expiry), previous) == ExpiresMs(expiry * 3600 * 1000)
    ensures expiry < 0 ==> TtlAfterSet(MappingTtlNs(expiry), previous) == Persistent
  {
    var ns := expiry * NsPerHour;
    assert MaxExpiryHours * NsPerHour <= MaxInt64 < (MaxExpiryHours + 1) * NsPerHour;
    assert IsInt64(ns);
    assert MappingTtlNs(expiry) == ns;
    if expiry > 0 {
      assert ns % NsPerSecond == 0 && ns / NsPerSecond == expiry * 3600;
    }
  }

  /**
   * What a successful request leaves behind: database 0 changed only at the
   * chosen id, which now holds the scheme-normalised URL, and a response that
   * echoes that URL, the short link on the service's domain and the
   * effective expiry.
   */
  predicate StoredMapping(h: Handled<Response>, req: Request, generated: string, env: Env, db0: Db) {
    var id := ShortId(req, generated);
    && h.response.Shortened?
    && SameExcept(db0, h.db0, id)
    && id in h.db0.entries
    && h.db0.entries[id].value == EnforceHTTP(req.url) == h.response.url
    && h.response.short == env.domain + "/" + id
    && h.response.expiry == EffectiveExpiry(req.expiry)
  }

  /** The shorten handler. */
  function ShortenUrl(body: Option<Request>, ip: string, isUrl: bool, generated: string,
                      env: Env, db0: Db, db1: Db): (h: Handled<Response>)
    requires IsGeneratedId(generated)
    ensures body.None? ==> h == Handled(CannotParseJson, db0, db1) && StatusCode(h.response) == 400
    ensures !h.response.Shortened? ==> h.db0 == db0
    ensures body.Some? && !h.response.Shortened? ==> h.db1 == AfterQuotaCheck(db1, ip, env.apiQuota)
    ensures SameExcept(db1, h.db1, ip)
    ensures h.response.Shortened? ==> body.Some? && StoredMapping(h, body.value, generated, env, db0)
  {
    match body
    case None => Handled(CannotParseJson, db0, db1)
    case Some(req) =>
      match CheckQuota(db1, ip, env.apiQuota)
      case Deny(reset) => Handled(RateLimitExceeded(reset), db0, db1)
      case Admit(quota) =>
        if !isUrl then Handled(InvalidUrl, db0, quota)
        else if !RemoveDomainError(req.url, env.domain) then Handled(ServiceUnavailable, db0, quota)
        else
          var id := ShortId(req, generated);
          if Text(Get(db0, id)) != "" then Handled(ShortInUse, db0, quota)
          else
            var h := Persist(EnforceHTTP(req.url), id, EffectiveExpiry(req.expiry), ip, env, db0, quota);
            SameExceptTrans(db1, quota, h.db1, ip);
            h
  }

  /** Agreeing outside one key is transitive. */
  lemma SameExceptTrans(a: Db, b: Db, c: Db, key: string)
    requires SameExcept(a, b, key) && SameExcept(b, c, key)
    ensures SameExcept(a, c, key)
  {
  }

  /**
   * The steps after the uniqueness guard: write the mapping, and only when
   * that succeeded charge the quota and report it.
   */
  function Persist(url: string, id: string, expiry: Int64, ip: string, env: Env, db0: Db, quota: Db)
    : (h: Handled<Response>)
    ensures db0.writesFail <==> h.response == CannotConnect
    ensures db0.writesFail ==> h == Handled(CannotConnect, db0, quota)
    ensures !db0.writesFail ==>
              && h.response.Shortened?
              && SameExcept(db0, h.db0, id) && id in h.db0.entries && h.db0.entries[id].value == url
              && h.response.url == url && h.response.short == env.domain + "/" + id
              && h.response.expiry == expiry
    ensures SameExcept(quota, h.db1, ip)
  {
    var stored := Set(db0, id, url, MappingTtlNs(expiry));
    if !stored.ok then Handled(CannotConnect, db0, quota)
    else
      var charged := IncrBy(quota, ip, -1).db;
      var remaining := Atoi(Text(Get(charged, ip)));
      var reset := ResetMinutes(TtlDuration(charged, ip));
      Handled(Shortened(url, env.domain + "/" + id, expiry, remaining, reset), stored.db, charged)
  }

  /**
   * A request succeeds exactly when the body parsed, the quota step admitted
   * it, the URL passed both checks, the id was not already mapped to a
   * non-empty value and the mapping was written.
   */
  lemma ShortenedIff(body: Option<Request>, ip: string, isUrl: bool, generated: string,
                     env: Env, db0: Db, db1: Db)
    requires IsGeneratedId(generated)
    ensures ShortenUrl(body, ip, isUrl, generated, env, db0, db1).response.Shortened? <==>
              && body.Some?
              && CheckQuota(db1, ip, env.apiQuota).Admit?
              && isUrl
              && RemoveDomainError(body.value.url, env.domain)
              && Text(Get(db0, ShortId(body.value, generated))) == ""
              && !db0.writesFail
  {
  }

  /**
   * A client whose stored quota reads as 0 or less is turned away with the
   * window's remaining time in whole minutes, and nothing is written.
   */
  lemma QuotaExhausted(body: Option<Request>, ip: string, isUrl: bool, generated: string,
                       env: Env, db0: Db, db1: Db)
    requires IsGeneratedId(generated)
    requires body.Some?
    requires !db1.readsFail && ip in db1.entries && Atoi(db1.entries[ip].value) <= 0
    ensures var h := ShortenUrl(body, ip, isUrl, generated, env, db0, db1);
            && h.response.RateLimitExceeded? && StatusCode(h.response) == 503
            && h.db0 == db0 && h.db1 == db1
            && (db1.entries[ip].ttl.ExpiresMs? ==>
                  h.response.rateLimitReset == (db1.entries[ip].ttl.ms + 500) / 1000 / 60)
  {
    var d := TtlDuration(db1, ip);
    if db1.entries[ip].ttl.ExpiresMs? {
      var secs := (db1.entries[ip].ttl.ms + 500) / 1000;
      assert d == secs * NsPerSecond;
      assert ResetMinutes(d) == secs / 60;
    }
  }

  /** A failing quota read yields "" and Atoi("") is 0, so it is treated as an exhausted quota. */
  lemma QuotaReadErrorRejects(body: Option<Request>, ip: string, isUrl: bool, generated: string,
                              env: Env, db0: Db, db1: Db)
    requires IsGeneratedId(generated)
    requires body.Some? && db1.readsFail
    ensures ShortenUrl(body, ip, isUrl, generated, env, db0, db1) == Handled(RateLimitExceeded(0), db0, db1)
    ensures StatusCode(ShortenUrl(body, ip, isUrl, generated, env, db0, db1).response) == 503
  {
  }

  /**
   * A first-seen client gets the configured quota with a 30-minute window
   * and the request goes on; when it fails afterwards, that initial value is
   * what stays stored.
   */
  lemma QuotaInitialised(body: Option<Request>, ip: string, isUrl: bool, generated: string,
                         env: Env, db0: Db, db1: Db)
    requires IsGeneratedId(generated)
    requires body.Some? && !db1.readsFail && !db1.writesFail && ip !in db1.entries
    ensures var h := ShortenUrl(body, ip, isUrl, generated, env, db0, db1);
            && !h.response.RateLimitExceeded?
            && (!h.response.Shortened? ==> h.db1.entries[ip] == Entry(env.apiQuota, ExpiresMs(1_800_000)))
  {
  }

  /**
   * The quota fails open: when database 1 accepts no writes, a first-seen
   * client's initialisation is lost, the request is admitted whatever the
   * configured quota, and database 1 is left exactly as it was, so the next
   * request from that client meets the same situation.
   */
  lemma QuotaFailsOpen(body: Option<Request>, ip: string, isUrl: bool, generated: string,
                       env: Env, db0: Db, db1: Db)
    requires IsGeneratedId(generated)
    requires !db1.readsFail && db1.writesFail && ip !in db1.entries
    ensures var h := ShortenUrl(body, ip, isUrl, generated, env, db0, db1);
            && !h.response.RateLimitExceeded?
            && h.db1 == db1
  {
    if body.Some? {
      var req := body.value;
      assert CheckQuota(db1, ip, env.apiQuota) == Admit(db1);
      var h := ShortenUrl(body, ip, isUrl, generated, env, db0, db1);
      if h.response.Shortened? {
        SuccessIsPersist(req, ip, isUrl, generated, env, db0, db1);
      }
    }
  }

  /**
   * While database 1 accepts no writes, no request changes it: the DECR's
   * error at the end of a success is dropped, so a known client whose quota
   * reads as positive is admitted every time and never charged.
   */
  lemma WriteFailureNeverCharges(body: Option<Request>, ip: string, isUrl: bool, generated: string,
                                 env: Env, db0: Db, db1: Db)
    requires IsGeneratedId(generated)
    requires db1.writesFail
    ensures var h := ShortenUrl(body, ip, isUrl, generated, env, db0, db1);
            && h.db1 == db1
            && (!db1.readsFail && ip in db1.entries && Atoi(db1.entries[ip].value) > 0 ==>
                  !h.response.RateLimitExceeded?)
  {
    if body.Some? {
      var h := ShortenUrl(body, ip, isUrl, generated, env, db0, db1);
      if h.response.Shortened? {
        SuccessIsPersist(body.value, ip, isUrl, generated, env, db0, db1);
      }
    }
  }

  /**
   * Validation comes after the quota step and before database 0 is touched:
   * an invalid URL gives 400, a URL of the service's own domain gives 503,
   * and neither changes database 0 or charges the quota.
   */
  lemma ValidationOrder(req: Request, ip: string, isUrl: bool, generated: string,
                        env: Env, db0: Db, db1: Db)
    requires IsGeneratedId(generated)
    requires CheckQuota(db1, ip, env.apiQuota).Admit?
    ensures var h := ShortenUrl(Some(req), ip, isUrl, generated, env, db0, db1);
            && (!isUrl ==> h.response == InvalidUrl && StatusCode(h.response) == 400)
            && (isUrl && !RemoveDomainError(req.url, env.domain) ==>
                  h.response == ServiceUnavailable && StatusCode(h.response) == 503)
            && (h.response == InvalidUrl || h.response == ServiceUnavailable ==>
                  h.db0 == db0 && h.db1 == CheckQuota(db1, ip, env.apiQuota).db1)
  {
  }

  /**
   * An id already mapped to a non-empty value is refused with 403; the
   * mapping is not overwritten and the quota is not charged.
   */
  lemma IdInUse(req: Request, ip: string, generated: string, env: Env, db0: Db, db1: Db)
    requires IsGeneratedId(generated)
    requires CheckQuota(db1, ip, env.apiQuota).Admit?
    requires RemoveDomainError(req.url, env.domain)
    requires !db0.readsFail
    requires var id := ShortId(req, generated); id in db0.entries && db0.entries[id].value != ""
    ensures ShortenUrl(Some(req), ip, true, generated, env, db0, db1) ==
              Handled(ShortInUse, db0, CheckQuota(db1, ip, env.apiQuota).db1)
    ensures StatusCode(ShortenUrl(Some(req), ip, true, generated, env, db0, db1).response) == 403
  {
  }

  /** A failing SET gives 500; nothing is stored and the quota is not charged. */
  lemma StoreFailure(req: Request, ip: string, generated: string, env: Env, db0: Db, db1: Db)
    requires IsGeneratedId(generated)
    requires CheckQuota(db1, ip, env.apiQuota).Admit?
    requires RemoveDomainError(req.url, env.domain)
    requires Text(Get(db0, ShortId(req, generated))) == ""
    requires db0.writesFail
    ensures ShortenUrl(Some(req), ip, true, generated, env, db0, db1) ==
              Handled(CannotConnect, db0, CheckQuota(db1, ip, env.apiQuota).db1)
    ensures StatusCode(ShortenUrl(Some(req), ip, true, generated, env, db0, db1).response) == 500
  {
  }

  /**
   * Past MaxExpiryHours the product expiry * 3600 s wraps around in int64: one
   * hour more gives a negative duration, so the mapping never expires, and the
   * same amount negated gives a positive one of about 292 years.
   */
  lemma ExpiryWrapsAround(previous: Ttl)
    ensures TtlAfterSet(MappingTtlNs(MaxExpiryHours + 1), previous) == Persistent
    ensures TtlAfterSet(MappingTtlNs(-MaxExpiryHours - 1), previous) == ExpiresMs(9_223_371_273_709)
  {
    assert MappingTtlNs(MaxExpiryHours + 1) == -9_223_371_273_709_551_616;
    assert MappingTtlNs(-MaxExpiryHours - 1) == 9_223_371_273_709_551_616;
  }

  /** A successful request is the persist step applied to the normalised URL and chosen id. */
  lemma SuccessIsPersist(req: Request, ip: string, isUrl: bool, generated: string,
                         env: Env, db0: Db, db1: Db)
    requires IsGeneratedId(generated)
    requires ShortenUrl(Some(req), ip, isUrl, generated, env, db0, db1).response.Shortened?
    ensures ShortenUrl(Some(req), ip, isUrl, generated, env, db0, db1) ==
              Persist(EnforceHTTP(req.url), ShortId(req, generated), EffectiveExpiry(req.expiry),
                      ip, env, db0, AfterQuotaCheck(db1, ip, env.apiQuota))
  {
  }

  /**
   * The stored mapping's TTL is the expiry in hours, and a negative expiry
   * stores the mapping without TTL.
   */
  lemma PersistExpiry(url: string, id: string, expiry: Int64, ip: string, env: Env, db0: Db, quota: Db)
    requires -MaxExpiryHours <= expiry <= MaxExpiryHours
    requires !db0.writesFail
    ensures var h := Persist(url, id, expiry, ip, env, db0, quota);
            && (expiry > 0 ==> h.db0.entries[id].ttl == ExpiresMs(expiry * 3600 * 1000))
            && (expiry < 0 ==> h.db0.entries[id].ttl == Persistent)
  {
    var previous := if id in db0.entries then db0.entries[id].ttl else Persistent;
    MappingTtl(expiry, previous);
  }

  /**
   * On success the response echoes the effective expiry (24 when the request
   * said 0) and the mapping's TTL is that many hours; a negative expiry stores
   * the mapping without TTL.
   */
  lemma SuccessExpiry(req: Request, ip: string, isUrl: bool, generated: string,
                      env: Env, db0: Db, db1: Db)
    requires IsGeneratedId(generated)
    requires -MaxExpiryHours <= req.expiry <= MaxExpiryHours
    ensures var h := ShortenUrl(Some(req), ip, isUrl, generated, env, db0, db1);
            var id := ShortId(req, generated);
            h.response.Shortened? ==>
              && h.response.expiry == (if req.expiry == 0 then 24 else req.expiry)
              && (h.response.expiry > 0 ==> h.db0.entries[id].ttl == ExpiresMs(h.response.expiry * 3600 * 1000))
              && (h.response.expiry < 0 ==> h.db0.entries[id].ttl == Persistent)
  {
    var h := ShortenUrl(Some(req), ip, isUrl, generated, env, db0, db1);
    if h.response.Shortened? {
      SuccessIsPersist(req, ip, isUrl, generated, env, db0, db1);
      PersistExpiry(EnforceHTTP(req.url), ShortId(req, generated), EffectiveExpiry(req.expiry),
                    ip, env, db0, AfterQuotaCheck(db1, ip, env.apiQuota));
    }
  }

  /**
   * Persisting charges exactly one unit: a stored quota n becomes n - 1 with
   * its window unchanged, and the response reports n - 1 and the window's
   * remaining minutes.
   */
  lemma PersistConsumesOne(url: string, id: string, expiry: Int64, ip: string, env: Env, db0: Db, quota: Db, n: int)
    requires !db0.writesFail
    requires !quota.readsFail && !quota.writesFail
    requires ip in quota.entries && RedisInteger(quota.entries[ip].value) == Some(n) && n > MinInt64
    ensures var h := Persist(url, id, expiry, ip, env, db0, quota);
            && h.db1.entries[ip] == Entry(IntToString(n - 1), quota.entries[ip].ttl)
            && h.response.rateLimit == n - 1
            && h.response.rateLimitReset == ResetMinutes(TtlDuration(quota, ip))
  {
    var w := IncrBy(quota, ip, -1);
    RedisIntegerIff(w.db.entries[ip].value, n - 1);
    AtoiIntToString(n - 1);
  }

  /**
   * A success charges exactly one unit of the quota the client had after the
   * quota step, and reports the decremented count.
   */
  lemma SuccessConsumesOne(req: Request, ip: string, isUrl: bool, generated: string,
                           env: Env, db0: Db, db1: Db, n: int)
    requires IsGeneratedId(generated)
    requires !db1.readsFail && !db1.writesFail
    requires var q := AfterQuotaCheck(db1, ip, env.apiQuota);
             ip in q.entries && RedisInteger(q.entries[ip].value) == Some(n) && n > MinInt64
    ensures var h := ShortenUrl(Some(req), ip, isUrl, generated, env, db0, db1);
            var q := AfterQuotaCheck(db1, ip, env.apiQuota);
            h.response.Shortened? ==>
              && h.db1.entries[ip] == Entry(IntToString(n - 1), q.entries[ip].ttl)
              && h.response.rateLimit == n - 1
              && h.response.rateLimitReset == ResetMinutes(TtlDuration(q, ip))
  {
    var h := ShortenUrl(Some(req), ip, isUrl, generated, env, db0, db1);
    if h.response.Shortened? {
      SuccessIsPersist(req, ip, isUrl, generated, env, db0, db1);
      PersistConsumesOne(EnforceHTTP(req.url), ShortId(req, generated), EffectiveExpiry(req.expiry),
                         ip, env, db0, AfterQuotaCheck(db1, ip, env.apiQuota), n);
    }
  }

  /**
   * A stored quota that Atoi reads as positive but the store does not accept
   * as an integer ("+5", "05") can never be decremented: a success leaves it
   * exactly as it was.
   */
  lemma NonIntegerQuotaNeverCharged(req: Request, ip: string, isUrl: bool, generated: string,
                                    env: Env, db0: Db, db1: Db)
    requires IsGeneratedId(generated)
    requires !db1.readsFail && ip in db1.entries
    requires Atoi(db1.entries[ip].value) > 0 && RedisInteger(db1.entries[ip].value).None?
    ensures ShortenUrl(Some(req), ip, isUrl, generated, env, db0, db1).db1 == db1
  {
    var h := ShortenUrl(Some(req), ip, isUrl, generated, env, db0, db1);
    if h.response.Shortened? {
      SuccessIsPersist(req, ip, isUrl, generated, env, db0, db1);
    }
  }
}

=== FILE: store.dfy ===
/**
 * The key-value store as the handlers see it through their client library.
 * A logical database is a finite map from key to an entry (text value plus
 * time-to-live) together with two fault switches: when `readsFail` every read
 * command answers with an error, when `writesFail` every write command answers
 * with an error and changes nothing. Time does not pass in the model, so a TTL
 * is just the number attached to its entry.
 */
module Store {
  import opened Decimal
  import opened GoInt

  datatype Option<T> = None | Some(value: T)

  datatype Ttl = Persistent | ExpiresMs(ms: nat)

  datatype Entry = Entry(value: string, ttl: Ttl)

  datatype Db = Db(entries: map<string, Entry>, readsFail: bool, writesFail: bool)

  /** A read has three outcomes: a value, the "no such key" reply, or an error. */
  datatype Reply = Found(value: string) | Missing | Failed

  /** Result of a write command: the database afterwards and whether the command succeeded. */
  datatype Written = Written(db: Db, ok: bool)

  /** What a handler produces: its response and both databases afterwards. */
  datatype Handled<R> = Handled(response: R, db0: Db, db1: Db)

  /** Two databases agree on every key except `key`, and have the same fault switches. */
  predicate SameExcept(a: Db, b: Db, key: string) {
    && a.readsFail == b.readsFail
    && a.writesFail == b.writesFail
    && a.entries.Keys - {key} == b.entries.Keys - {key}
    && (forall k :: k in a.entries && k != key ==> k in b.entries && a.entries[k] == b.entries[k])
  }

  /** GET */
  function Get(db: Db, key: string): (r: Reply)
    ensures r.Failed? <==> db.readsFail
    ensures r.Missing? <==> !db.readsFail && key !in db.entries
    ensures r.Found? ==> key in db.entries && r.value == db.entries[key].value
  {
    if db.readsFail then Failed
    else if key !in db.entries then Missing
    else Found(db.entries[key].value)
  }

  /** The text the client library hands back with a reply: the value, or "" when there is none. */
  function Text(r: Reply): (s: string)
    ensures r.Found? ==> s == r.value
    ensures !r.Found? ==> s == ""
  {
    match r
    case Found(v) => v
    case _ => ""
  }

  const NsPerMs: int := 1_000_000
  const NsPerSecond: int := 1_000_000_000
  /** The client library's "keep the existing TTL" expiration value. */
  const KeepTtl: int := -1

  /**
   * TTL after SET with expiration `expNs` nanoseconds: a positive whole number
   * of seconds is sent as seconds, any other positive duration as milliseconds
   * (at least one), the keep-TTL value keeps the previous TTL, and every other
   * non-positive duration sends no expiration, which leaves the key persistent.
   */
  function TtlAfterSet(expNs: int, previous: Ttl): (t: Ttl)
    ensures expNs > 0 ==> t.ExpiresMs? && t.ms >= 1
    ensures expNs >= NsPerMs ==> t.ExpiresMs? && t.ms * NsPerMs <= expNs < t.ms * NsPerMs + NsPerMs
    ensures expNs <= 0 && expNs != KeepTtl ==> t == Persistent
    ensures expNs == KeepTtl ==> t == previous
  {
    if expNs > 0 then
      if expNs < NsPerSecond || expNs % NsPerSecond != 0 then
        ExpiresMs(if expNs < NsPerMs then 1 else expNs / NsPerMs)
      else
        var secs := expNs / NsPerSecond;
        assert expNs == secs * 1000 * NsPerMs;
        ExpiresMs(secs * 1000)
    else if expNs == KeepTtl then previous
    else Persistent
  }

  /** SET key value with an expiration. */
  function Set(db: Db, key: string, value: string, expNs: int): (w: Written)
    ensures w.ok <==> !db.writesFail
    ensures !w.ok ==> w.db == db
    ensures SameExcept(db, w.db, key)
    ensures w.ok ==> key in w.db.entries && w.db.entries[key].value == value
  {
    if db.writesFail then Written(db, false)
    else
      var previous := if key in db.entries then db.entries[key].ttl else Persistent;
      Written(db.(entries := db.entries[key := Entry(value, TtlAfterSet(expNs, previous))]), true)
  }

  /**
   * The store's integer reading of a value: only the shortest decimal text of
   * a 64-bit signed integer counts ("0", "-7", "42"; not "+1", "007" or "-0").
   */
  function RedisInteger(s: string): (r: Option<int>)
    ensures r.Some? ==> IsInt64(r.value)
  {
    var v: Option<int> :=
      if |s| >= 2 && s[0] == '-' && Canonical(s[1..]) && s[1] != '0' then Some(-(Value(s[1..]) as int))
      else if Canonical(s) then Some(Value(s))
      else None;
    if v.Some? && IsInt64(v.value) then v else None
  }

  /** The store reads an integer exactly when the value is the decimal text of an int64. */
  lemma RedisIntegerIff(s: string, n: int)
    ensures RedisInteger(s) == Some(n) <==> IsInt64(n) && s == IntToString(n)
  {
    if RedisInteger(s) == Some(n) {
      if |s| >= 2 && s[0] == '-' && Canonical(s[1..]) && s[1] != '0' {
        CanonicalIsNatToString(s[1..]);
        assert s == "-" + s[1..];
      } else {
        CanonicalIsNatToString(s);
      }
    }
    if IsInt64(n) && s == IntToString(n) {
      if n < 0 {
        assert s[1..] == NatToString(-n);
      }
    }
  }

  /** The counter an INCR/DECR would start from: 0 for an absent key. */
  function Counter(db: Db, key: string): Option<int> {
    if key !in db.entries then Some(0) else RedisInteger(db.entries[key].value)
  }

  /**
   * INCRBY: an absent key counts as 0 and is created without a TTL; a value
   * that is not an integer, or a result outside int64, is an error that
   * changes nothing; an existing key keeps its TTL.
   */
  function IncrBy(db: Db, key: string, delta: int): (w: Written)
    requires IsInt64(delta)
    ensures w.ok <==> !db.writesFail && Counter(db, key).Some? && IsInt64(Counter(db, key).value + delta)
    ensures !w.ok ==> w.db == db
    ensures w.ok ==> Counter(w.db, key) == Some(Counter(db, key).value + delta)
    ensures w.ok ==> key in w.db.entries
    ensures w.ok && key in db.entries ==> w.db.entries[key].ttl == db.entries[key].ttl
    ensures w.ok && key !in db.entries ==> w.db.entries[key].ttl == Persistent
    ensures SameExcept(db, w.db, key)
  {
    match Counter(db, key)
    case None => Written(db, false)
    case Some(n) =>
      if db.writesFail || !IsInt64(n + delta) then Written(db, false)
      else
        var ttl := if key in db.entries then db.entries[key].ttl else Persistent;
        RedisIntegerIff(IntToString(n + delta), n + delta);
        Written(db.(entries := db.entries[key := Entry(IntToString(n + delta), ttl)]), true)
  }

  /**
   * TTL as the client library returns it, in nanoseconds: the reply's seconds
   * (the store rounds milliseconds to the nearest second) scaled to
   * nanoseconds, except the "no key" (-2) and "no TTL" (-1) replies, which
   * are passed through unscaled, and 0 on an error.
   */
  function TtlDuration(db: Db, key: string): (d: int)
    ensures d >= -2
    ensures db.readsFail ==> d == 0
    ensures !db.readsFail && key !in db.entries ==> d == -2
    ensures !db.readsFail && key in db.entries && db.entries[key].ttl.Persistent? ==> d == -1
    ensures !db.readsFail && key in db.entries && db.entries[key].ttl.ExpiresMs? ==>
              d % NsPerSecond == 0 && d / NsPerSecond * 1000 - 500 <= db.entries[key].ttl.ms < d / NsPerSecond * 1000 + 500
  {
    if db.readsFail then 0
    else if key !in db.entries then -2
    else match db.entries[key].ttl
      case Persistent => -1
      case ExpiresMs(ms) => (ms + 500) / 1000 * NsPerSecond
  }
}
